=== FILE: README.md ===
# HTML generator editor core, in Dafny

This project models the logic inside the single React component of an HTML+CSS
generator page. A user fills in a main and a sub category (name and URL) and a
title, writes body text in a content-editable editor, inserts captioned images and
links through a two-field modal, and generates one HTML document that embeds the
editor's markup. The form can also be exported to a JSON file, imported back, or
cleared.

The model is functional. The editor body is a flat sequence of top-level nodes
(`Text`, `Br`, `Figure`, `Anchor`, `Para`). A DOM range is a pair of boundary
indices between those nodes. Every handler is a pure function from the old state to
the new one.

| module | file | what it covers |
|---|---|---|
| `Maybe` | `maybe.dfy` | `Option`, standing for `null` / `undefined` |
| `Strings` | `strings.dfy` | prefix and suffix facts used to say where markup lands |
| `Nodes` | `nodes.dfy` | nodes, ranges, the splice every edit performs, `range.toString()`, the `innerHTML` read-back |
| `Fragments` | `fragments.dfy` | the image and link callbacks: caption marker, `alt` fallback, link-text precedence |
| `Editor` | `editor.dfy` | the Enter handler and `insertHtmlAtCursor` |
| `Session` | `session.dfy` | the saved range, the input modal, the toolbar buttons, and a full confirm |
| `Serializer` | `serializer.dfy` | the category breadcrumb and the document shell of `generateHtmlCss` |
| `Settings` | `settings.dfy` | export, import with `\|\| ''` defaulting, and clearing of the form |

Some behaviour of the code is easy to misread; the model follows what the code does:

- **Caret after a link.** The comment at `src/App.js:272` says the caret goes right
  after the inserted node. In the code, `range.insertNode(fragment)` has already
  emptied the DocumentFragment, so `fragment.lastChild` is null and the caret goes
  to the end of the editor. `Editor.LinkCaretAtEditorEnd` shows this is after the
  anchor exactly when nothing follows the replaced range.
- **No saved range.** `saveSelection` keeps an older saved range when the window has
  none, and cancelling the modal does not clear it. So the next formatting command
  acts on that old range, not on the current selection
  (`Session.CancelledRangeStillRestored`).
- **Insertion without a saved range.** This is handed to the browser's `insertHTML`
  command. The model returns it as `BrowserInsertHtml` and does not model its effect.
- **Import defaulting.** Import turns every falsy value into `''`, not only missing
  keys, and stores a truthy value that is not a string as it is. A payload that is a
  string, a number or an array gives `undefined` for every key and so clears the
  form. A `null` payload fails before any field is set. An `editorContent` value
  whose string conversion throws (an object with its own `toString` member, or an
  array holding one) fails after all six fields are set: the form holds the
  imported values and the failure message is shown
  (`Settings.UnconvertibleContentFailsAfterSetting`).

The document is a pure function, so equal inputs give identical output by
construction.

## Model

| member | source | states |
|---|---|---|
| Nodes.Splice | src/App.js:127-128 | deleting a range and inserting nodes at its start keeps the nodes before the range in place and shifts the nodes after it by the length difference |
| Nodes.SpliceUndo | src/App.js:127-128 | putting the deleted nodes back over the inserted ones restores the original document |
| Nodes.RangeText | src/App.js:212-213 | the text of a range is empty when the range is collapsed, and the document's text is the text before it, then it, then the text after it |
| Nodes.Escape | src/App.js:139-142 | escaped text and escaped attribute values never contain `<` or `>`, and escaped attribute values never contain `"` |
| Nodes.SpliceMarkup | src/App.js:290-293 | after a splice, the markup read back is the old markup before the range, then the inserted nodes' markup, then the old markup after the range |
| Fragments.FormattedCaption | src/App.js:189-190 | the figcaption text is empty exactly when the caption is |
| Fragments.CaptionRoundTrip | src/App.js:190 | a non-empty figcaption text starts with the `▲ ` marker, and stripping it gives back the typed caption, for every caption |
| Fragments.AltText | src/App.js:191 | `alt` is never empty: it is the caption, or `圖片` for an empty caption |
| Fragments.AltConflatesDefault | src/App.js:190-191 | an empty caption and the caption `圖片` give the same `alt`; only the figcaption tells them apart |
| Fragments.ImageHtmlShape | src/App.js:191 | the image markup opens with the `img` tag carrying the URL and the `alt` text, and closes with the figcaption holding the formatted caption |
| Fragments.ImageFigure | src/App.js:190-191 | the figure's source is the URL; with a caption, `alt` is the caption and the figcaption is `▲ ` plus the caption; without one, `alt` is `圖片` and the figcaption is empty |
| Fragments.ImageCallback | src/App.js:187-193 | the image callback produces nothing exactly when the URL is empty; otherwise one figure, flagged as an image |
| Fragments.SelectedText | src/App.js:212-213 | selected text is offered exactly when a saved range exists and is not collapsed, and it is that range's text |
| Fragments.LinkText | src/App.js:209-219 | the modal text wins if non-empty; else non-empty selected text; else the URL; the result is never empty when the URL is not |
| Fragments.LinkHtmlShape | src/App.js:222 | the link markup carries the URL followed by `target="_blank" rel="noopener noreferrer"`, and ends with the link text |
| Fragments.LinkCallback | src/App.js:207-224 | the link callback produces nothing exactly when the URL is empty; otherwise one anchor, not flagged as an image, with the resolved non-empty text |
| Editor.HandleKeyDown | src/App.js:116-144 | only Enter suppresses the default; with no range nothing changes; with a range the selected nodes are replaced by one `Br`, the rest is kept, the caret is collapsed right after it, and the markup is read back |
| Editor.EnterReplacesSelectionByOneBreak | src/App.js:126-128 | as multisets, Enter removes exactly the selected nodes and adds exactly one `Br` |
| Editor.EnterCaretFollowsBreak | src/App.js:131-137 | the caret after Enter is collapsed, valid, and directly preceded by a `Br` |
| Editor.InsertAtCursor | src/App.js:230-289 | with no saved range, the markup goes to the browser; with one, an image gets the placeholder paragraph right after its figure and the caret at offset 0 inside it; anything else leaves the caret at the end of the editor |
| Editor.ImageInsertion | src/App.js:255-270 | a confirmed image becomes prefix, figure, placeholder paragraph, suffix, with the caret inside the paragraph |
| Editor.LinkCaretAtEditorEnd | src/App.js:250-279 | a confirmed link puts the anchor at the range start but the caret at the end of the editor, which is right after the anchor exactly when nothing followed the range |
| Session.InitialConsistent | src/App.js:45-58 | on mount nothing is saved, the modal is hidden, and the modal invariant holds |
| Session.SaveSelection | src/App.js:91-96 | the saved range is overwritten only when the window has a range; nothing else changes |
| Session.ApplyFormat | src/App.js:73-88 | the command acts on the saved range if there is one, else on the live selection; the saved range is cleared; nothing else changes |
| Session.SavedRangeConsumedOnce | src/App.js:75-87 | a saved range serves at most one command; the next acts on the live selection |
| Session.OpenInputModal | src/App.js:147-157 | opening shows the modal with the prompt and callback, empties both inputs, and keeps the saved range |
| Session.EditInput1 | src/App.js:615-616 | typing in the first input changes only that input and keeps the modal consistent |
| Session.EditInput2 | src/App.js:626-627 | typing in the second input changes only that input and keeps the modal consistent |
| Session.CloseInputModal | src/App.js:160-168 | cancelling hides the modal and clears the callback and both inputs, but keeps the saved range |
| Session.Confirm | src/App.js:171-176 | confirming invokes the stored callback exactly when one is stored, with the two inputs, then closes the modal without touching the saved range |
| Session.ConfirmAtMostOnce | src/App.js:171-176 | a second confirm invokes nothing |
| Session.InsertImageClicked | src/App.js:179-196 | the image button saves the selection, then opens the image prompt with the image callback and empty inputs |
| Session.InsertLinkClicked | src/App.js:199-227 | the link button saves the selection, then opens the link prompt with the link callback and empty inputs |
| Session.CallbackFragment | src/App.js:187-225 | either stored callback builds a fragment exactly when its URL input is non-empty; the image callback builds the figure of the URL and caption, and the link callback the anchor of the URL with the text chosen from the typed text, the saved range's text and the URL |
| Session.ConfirmModal | src/App.js:171-176 | a confirm inserts and clears the saved range exactly when a callback is stored and the URL is non-empty, and what it inserts is the stored callback's fragment for the two inputs, at the saved range; otherwise the saved range stays; the modal always ends closed |
| Session.ConsistentPreserved | src/App.js:147-176 | saving, formatting and confirming keep "modal shown exactly while a callback is stored, inputs empty while hidden" |
| Session.LinkFlow | src/App.js:199-296 | button, typed URL and text, then confirm: one anchor with the resolved text replaces the range, the caret goes to the end of the editor, and the modal is closed with nothing saved |
| Session.ImageFlow | src/App.js:179-296 | button, typed URL and caption, then confirm: the figure and placeholder replace the range, the caret is inside the placeholder, and the modal is closed with nothing saved |
| Session.CancelledRangeStillRestored | src/App.js:160-168 | after a cancelled modal, the next formatting command acts on the range saved when the button was clicked |
| Session.EmptyUrlKeepsSavedRange | src/App.js:187-193 | confirming with an empty URL inserts nothing and keeps the saved range |
| Serializer.CategoryElement | src/App.js:482-483 | a breadcrumb half is empty exactly when its name is, whatever its URL |
| Serializer.Breadcrumb | src/App.js:481-491 | the breadcrumb is empty exactly when both names are |
| Serializer.BreadcrumbJoinsParts | src/App.js:485-491 | the four cases equal the present halves joined by ` &gt; ` and wrapped, so the separator is inserted exactly when both names are set |
| Serializer.UrlOfEmptyNameIgnored | src/App.js:482-483 | the URL of an empty name does not affect the breadcrumb |
| Serializer.PlainName | src/App.js:482-483 | a named half without a URL holds the name verbatim inside its span |
| Serializer.AnchorWithUrl | src/App.js:482-483 | a named half with a URL wraps the name in an anchor with the URL and the new-context attributes |
| Serializer.NoAnchorWithoutUrl | src/App.js:482-483 | a named half without a URL has no anchor, unless the unescaped name itself starts like one |
| Serializer.FrameEnds | src/App.js:494-512 | the part before the editor markup starts with the head and the title, and ends with the breadcrumb directly followed by the `h1` heading and the opening of the content `div` |
| Serializer.ShellTitles | src/App.js:499-514 | `<title>` holds the title or `無標題文件`; `<h1>` holds the title or `無標題`, followed directly by the unescaped editor markup and the closing tags |
| Serializer.ContentRecoverable | src/App.js:494-518 | for any breadcrumb and stylesheet, the editor markup sits verbatim between the part before it and the closing tags, and can be cut back out |
| Serializer.ContentDetermined | src/App.js:513-515 | different editor markups give different documents |
| Settings.Lookup | src/App.js:552-558 | a key is found exactly when some member has it, and the value found is that of the last such member |
| Settings.Property | src/App.js:553-558 | reading a property of any non-null value that is not an object gives `undefined` |
| Settings.OrEmpty | src/App.js:553-558 | `\|\| ''` keeps a truthy value, turns everything else into `''`, and always gives a normal field value |
| Settings.SettingsObject | src/App.js:524-531 | the exported object has exactly the six keys in order, each with its field's value |
| Settings.ExportedFieldsReadBack | src/App.js:524-531 | reading a key from the exported object gives that field's value |
| Settings.ExportSettings | src/App.js:523-543 | export downloads `html_generator_settings.json` holding the six keys with the field values, and shows the exported message |
| Settings.ImportedForm | src/App.js:553-558 | each field of an imported non-null value is its key's value or `''`, and the result is a normal form |
| Settings.ImportSettings | src/App.js:546-566 | a parse failure or `null` payload changes no field and shows the failure message; otherwise each field takes its key's value or `''`, and the imported message is shown exactly when the imported content converts to a string, the failure message otherwise; normal forms stay normal |
| Settings.UnconvertibleContentFailsAfterSetting | src/App.js:553-564 | for every payload whose content cannot be converted to a string, all imported fields are set and the failure message is shown |
| Settings.OwnToStringThrows | src/App.js:560 | every parsed object with its own `toString` member, such as `{"toString": 0}`, cannot be converted to a string |
| Settings.StringsConvert | src/App.js:560 | strings, numbers, booleans and `null` never make the `innerHTML` assignment throw |
| Settings.FieldRoundTrip | src/App.js:524-558 | a field holding a string or a truthy value survives export followed by import |
| Settings.ImportedFormOfExport | src/App.js:524-558 | importing the exported object of a normal form gives that form back |
| Settings.ExportImportRoundTrip | src/App.js:524-558 | importing an exported normal form reproduces all six fields |
| Settings.FalsyFieldBecomesEmpty | src/App.js:553-558 | any field holding a falsy value, such as `0`, `false` or `null`, comes back from a round trip as `''` |
| Settings.ClearAllContent | src/App.js:304-316 | clearing sets all six fields and the generated document to `''` and shows the cleared message |
| Settings.ClearedFormRoundTrip | src/App.js:304-316 | a cleared form survives export followed by import, with the imported message |

## Left out

- Formatting, paste and copy: bold, italic, underline, `foreColor`, `removeFormat`, the paste handler's `insertText`, and `copy` are browser commands. `Session.ApplyFormat` returns the command and the range it acts on; the command's effect on the document is not modelled.
- Editor.InsertAtCursor: the `insertHTML` fallback used when no range is saved is returned as a request to the browser; its effect is browser-defined.
- Fragments.ImageCallback and Fragments.LinkCallback: the markup string and the nodes it parses to are both produced, but HTML parsing is not modelled, so the model does not prove that parsing the string yields those nodes. A URL or text containing `"`, `<` or `&` would parse differently: the caption `AT&amp;T` parses to the figcaption `▲ AT&T`, while the model's figure keeps `▲ AT&amp;T`.
- Nested DOM structure: a range boundary inside a text run is representable only once the run is split into two `Text` nodes, and the model never performs that split; formatting wrappers and a caret inside the placeholder paragraph after later edits are all outside the flat node sequence. `Caret.InNode` records the caret inside the paragraph but is not a `Range` the other handlers accept.
- Live range updates: a saved DOM `Range` follows later mutations of the document. The model's index ranges do not, so the handlers that use a saved range require it to lie inside the current document.
- The fallback at `src/App.js:264-267` for a figure with no parent cannot happen in the flat model and is not represented.
- The editor-sync effect (`src/App.js:573-582`), the blur handler, and setting `innerHTML` from an imported string need HTML parsing. The model covers only reading markup back (`Nodes.InnerHtml`).
- Serializer.Document: the stylesheet text (`src/App.js:363-479`) is not reproduced. It is a parameter, and every fact holds for any stylesheet.
- `generateHtmlCss` as a page update is not modelled on `Settings.Page`: the serializer takes the six values as strings. A field holding a truthy non-string imported value would be rendered with JavaScript's string conversion, which is not modelled.
- Settings.Json: numbers are integers, since only whether a number is zero affects `|| ''`. A number outside the double range parses to `Infinity` or `-Infinity`, which is truthy and stored, but `JSON.stringify` writes it as `null`, so a re-import turns it into `''`; Settings.FieldRoundTrip, Settings.ImportedFormOfExport and Settings.ExportImportRoundTrip hold only for finite numbers. JSON text, `JSON.stringify`, `JSON.parse`, Blob and FileReader are I/O; export ends at the object, import starts at the parse result, and a missing file (`src/App.js:548`) is not modelled.
- The message box's hide button, the scroll-to-top listener and button, the unused base64 helpers, and all JSX rendering and styling are out of scope.
- Nodes.EscapeChar: follows the HTML standard's serialization as revised in 2025, escaping `<` and `>` in attribute values; browsers that predate the revision read those characters back raw in `src`, `alt` and `href`.
- The sync effect at `src/App.js:577-578`, which throws again on unconvertible imported content, is not modelled.
- Selections outside the editor: `saveSelection` (`src/App.js:91-96`) saves any range of the window, and the toolbar keeps that selection when clicked (`src/App.js:753`). Confirming the modal then deletes and inserts at that range, even outside the editor (`src/App.js:233`, `src/App.js:250`). A `Range` here indexes only the editor's nodes, so edits to the rest of the page are not modelled.
- Settings.ClearAllContent: emptying the editor's DOM (`src/App.js:311-313`) is not part of the page update; the editor document after clearing would be the empty `Doc`, which the model does not return.

=== FILE: editor.dfy ===
/**
 The two handlers that splice nodes into the editor at a range: the Enter key
 handler (`handleKeyDown`) and `insertHtmlAtCursor`. Both delete the nodes the
 range spans, insert new nodes at its start, and leave a new collapsed caret.
 */
module Editor {
  import opened Maybe
  import opened Nodes
  import opened Fragments

  /** A collapsed caret: between two top-level nodes, or at an offset inside one of them. */
  datatype Caret = Gap(index: nat) | InNode(index: nat, offset: nat)

  /**
   The result of a key press: whether the browser default was suppressed, the
   document, the live selection, and the markup read back into the content state
   (`None` when the handler did not read it).
   */
  datatype KeyOutcome = KeyOutcome(preventDefault: bool, doc: Doc, live: Option<Range>, synced: Option<string>)

  /** The node sequence that replaces the selection when Enter is pressed. */
  const LineBreak: seq<Node> := [Br]

  function HandleKeyDown(key: string, doc: Doc, live: Option<Range>): (o: KeyOutcome)
    requires live.Some? ==> live.value.ValidIn(doc)
    ensures o.preventDefault <==> key == "Enter"
    ensures key != "Enter" || live.None? ==> o.doc == doc && o.live == live && o.synced.None?
    ensures key == "Enter" && live.Some? ==>
      var r := live.value;
      && |o.doc| == |doc| - (r.end - r.start) + 1
      && o.doc[..r.start] == doc[..r.start]
      && o.doc[r.start] == Br
      && o.doc[r.start + 1..] == doc[r.end..]
      && o.live == Some(Range(r.start + 1, r.start + 1))
      && o.synced == Some(InnerHtml(o.doc))
  {
    if key != "Enter" then
      KeyOutcome(false, doc, live, None)
    else if live.None? then
      KeyOutcome(true, doc, live, None)
    else
      var r := live.value;
      var d := Splice(doc, r, LineBreak);
      assert d[r.start + 1..] == doc[r.end..];
      KeyOutcome(true, d, Some(Range(r.start + 1, r.start + 1)), Some(InnerHtml(d)))
  }

  /** Enter removes exactly the selected nodes and adds exactly one line break. */
  lemma EnterReplacesSelectionByOneBreak(doc: Doc, r: Range)
    requires r.ValidIn(doc)
    ensures multiset(HandleKeyDown("Enter", doc, Some(r)).doc) + multiset(doc[r.start..r.end])
            == multiset(doc) + multiset{Br}
  {
    var d := HandleKeyDown("Enter", doc, Some(r)).doc;
    assert d == doc[..r.start] + [Br] + doc[r.end..];
    assert doc == doc[..r.start] + doc[r.start..r.end] + doc[r.end..];
  }

  /** The caret Enter leaves sits directly after the inserted line break. */
  lemma EnterCaretFollowsBreak(doc: Doc, r: Range)
    requires r.ValidIn(doc)
    ensures var o := HandleKeyDown("Enter", doc, Some(r));
            o.live.Some? && o.live.value.Collapsed() && o.live.value.ValidIn(o.doc)
            && 0 < o.live.value.start && o.doc[o.live.value.start - 1] == Br
  {
  }

  // ---------------------------------------------------------------------------
  // insertHtmlAtCursor

  /**
   `Spliced`: the saved range was used; the new document, the caret, and the markup
   read back. `BrowserInsertHtml`: there was no saved range and the markup was handed
   to the browser's own `insertHTML` command, whose effect is not modelled.
   */
  datatype InsertOutcome =
    | Spliced(doc: Doc, caret: Caret, synced: string)
    | BrowserInsertHtml(html: string)

  /** The placeholder paragraph put after an inserted figure. */
  const Placeholder: Node := Para([Nbsp])

  /** An image fragment whose first node is a figure gets the placeholder paragraph after that figure. */
  predicate FollowedByPlaceholder(f: Fragment) {
    f.isImage && |f.nodes| > 0 && f.nodes[0].Figure?
  }

  /**
   With a saved range: splice the fragment in. An image gets the placeholder paragraph
   right after its figure, with the caret at offset 0 inside it. Any other fragment
   leaves the caret at the end of the editor: `range.insertNode` empties the
   DocumentFragment, so the branch meant to place the caret after its last child
   never runs.
   */
  function InsertAtCursor(doc: Doc, saved: Option<Range>, f: Fragment): (o: InsertOutcome)
    requires saved.Some? ==> saved.value.ValidIn(doc)
    ensures saved.None? <==> o.BrowserInsertHtml?
    ensures saved.None? ==> o.html == f.html
    ensures o.Spliced? ==> o.synced == InnerHtml(o.doc)
    ensures saved.Some? && FollowedByPlaceholder(f) ==>
      var r := saved.value;
      && o.doc == Splice(doc, r, [f.nodes[0], Placeholder] + f.nodes[1..])
      && o.doc[r.start] == f.nodes[0] && o.doc[r.start + 1] == Placeholder
      && o.caret == InNode(r.start + 1, 0)
    ensures saved.Some? && !FollowedByPlaceholder(f) ==>
      o.doc == Splice(doc, saved.value, f.nodes) && o.caret == Gap(|o.doc|)
  {
    if saved.None? then
      BrowserInsertHtml(f.html)
    else
      var r := saved.value;
      if FollowedByPlaceholder(f) then
        var d := Splice(doc, r, [f.nodes[0], Placeholder] + f.nodes[1..]);
        Spliced(d, InNode(r.start + 1, 0), InnerHtml(d))
      else
        var d := Splice(doc, r, f.nodes);
        Spliced(d, Gap(|d|), InnerHtml(d))
  }

  /**
   A confirmed image with a saved range: the selection is replaced by the figure and
   the placeholder paragraph, the rest of the document is kept, and the caret is
   inside the paragraph.
   */
  lemma ImageInsertion(doc: Doc, r: Range, url: string, caption: string)
    requires r.ValidIn(doc) && url != ""
    ensures var o := InsertAtCursor(doc, Some(r), ImageCallback(url, caption).value);
      && o.Spliced?
      && o.doc == doc[..r.start] + [ImageFigure(url, caption), Placeholder] + doc[r.end..]
      && o.caret == InNode(r.start + 1, 0)
      && o.doc[o.caret.index] == Para([Nbsp])
  {
    var f := ImageCallback(url, caption).value;
    assert f.nodes[1..] == [];
    assert [f.nodes[0], Placeholder] + f.nodes[1..] == [ImageFigure(url, caption), Placeholder];
  }

  /**
   A confirmed link with a saved range: the anchor replaces the selection, but the caret
   goes to the end of the editor, which is after the anchor only when nothing follows
   the range.
   */
  lemma LinkCaretAtEditorEnd(doc: Doc, r: Range, url: string, modalText: string)
    requires r.ValidIn(doc) && url != ""
    ensures var o := InsertAtCursor(doc, Some(r), LinkCallback(url, modalText, doc, Some(r)).value);
      && o.Spliced?
      && o.doc[r.start].Anchor?
      && o.caret == Gap(|o.doc|)
      && (o.caret == Gap(r.start + 1) <==> r.end == |doc|)
  {
  }
}

=== FILE: fragments.dfy ===
/**
 The two modal callbacks of the toolbar: the image callback of `insertImage` and the
 link callback of `insertLink`. Each turns the two modal inputs into a fragment (its
 markup string and the nodes that markup stands for), or into nothing when the URL
 input is empty.
 */
module Fragments {
  import opened Maybe
  import opened Nodes
  import opened Strings

  /** The glyph put in front of a non-empty image caption. */
  const CaptionMarker: string := "▲ "
  /** The `alt` text of an image inserted without a caption. */
  const DefaultAlt: string := "圖片"

  /** What a callback hands to the inserter: markup, the nodes it parses to, and the image flag. */
  datatype Fragment = Fragment(html: string, nodes: seq<Node>, isImage: bool)

  // ---------------------------------------------------------------------------
  // Image

  /** The figcaption text: the marker and the caption, or nothing for no caption. */
  function FormattedCaption(caption: string): (fc: string)
    ensures fc == "" <==> caption == ""
  {
    if caption != "" then CaptionMarker + caption else ""
  }

  /** Reads the caption typed in the modal back from a figcaption text. */
  function CaptionOf(fc: string): string {
    if HasPrefix(fc, CaptionMarker) then fc[|CaptionMarker|..] else fc
  }

  /** The figcaption keeps the caption recoverable, even where `alt` does not (see `AltConflatesDefault`). */
  lemma CaptionRoundTrip(caption: string)
    ensures caption != "" ==> HasPrefix(FormattedCaption(caption), CaptionMarker)
    ensures CaptionOf(FormattedCaption(caption)) == caption
  {
    if caption != "" {
      ConcatParts(CaptionMarker, caption);
    }
  }

  function AltText(caption: string): (alt: string)
    ensures alt != ""
    ensures caption != "" ==> alt == caption
    ensures caption == "" ==> alt == DefaultAlt
  {
    if caption != "" then caption else DefaultAlt
  }

  /** An empty caption and the caption "圖片" give the same `alt`, and differ only in the figcaption. */
  lemma AltConflatesDefault(url: string)
    ensures ImageFigure(url, "").alt == ImageFigure(url, DefaultAlt).alt
    ensures ImageFigure(url, "").caption != ImageFigure(url, DefaultAlt).caption
  {
  }

  /** The image tag of the image markup. */
  function ImgTag(url: string, caption: string): string {
    "<figure><img src=\"" + url + "\" alt=\"" + AltText(caption) + "\" />"
  }

  /** The caption block closing the image markup. */
  function CaptionBlock(caption: string): string {
    "<figcaption>" + FormattedCaption(caption) + "</figcaption></figure>"
  }

  /** The markup string the image callback builds. */
  function ImageHtml(url: string, caption: string): string {
    ImgTag(url, caption) + CaptionBlock(caption)
  }

  /** The image markup opens with the image tag and closes with the caption block. */
  lemma ImageHtmlShape(url: string, caption: string)
    ensures HasPrefix(ImageHtml(url, caption), ImgTag(url, caption))
    ensures HasSuffix(ImageHtml(url, caption), CaptionBlock(caption))
  {
    ConcatParts(ImgTag(url, caption), CaptionBlock(caption));
  }

  /** The figure node that markup stands for. */
  function ImageFigure(url: string, caption: string): (n: Node)
    ensures n.Figure? && n.src == url && n.alt != ""
    ensures caption != "" ==> n.alt == caption && n.caption == CaptionMarker + caption
    ensures caption == "" ==> n.alt == DefaultAlt && n.caption == ""
  {
    Figure(url, AltText(caption), FormattedCaption(caption))
  }

  /** The image callback: nothing for an empty URL, otherwise one figure, flagged as an image. */
  function ImageCallback(url: string, caption: string): (f: Option<Fragment>)
    ensures f.None? <==> url == ""
    ensures f.Some? ==> f.value.isImage && f.value.nodes == [ImageFigure(url, caption)]
    ensures f.Some? ==> f.value.html == ImageHtml(url, caption)
  {
    if url != "" then Some(Fragment(ImageHtml(url, caption), [ImageFigure(url, caption)], true)) else None
  }

  // ---------------------------------------------------------------------------
  // Link

  /** The text of the saved range, when there is one and it is not collapsed. */
  function SelectedText(doc: Doc, saved: Option<Range>): (t: Option<string>)
    requires saved.Some? ==> saved.value.ValidIn(doc)
    ensures t.Some? <==> saved.Some? && !saved.value.Collapsed()
    ensures t.Some? ==> t.value == RangeText(doc, saved.value)
  {
    if saved.Some? && !saved.value.Collapsed() then Some(RangeText(doc, saved.value)) else None
  }

  /**
   The visible link text, resolved in the callback's order: the modal text; then,
   if that is empty, the selected text; then, if that is still empty, the URL.
   */
  function LinkText(url: string, modalText: string, selected: Option<string>): (t: string)
    ensures modalText != "" ==> t == modalText
    ensures modalText == "" && selected.Some? && selected.value != "" ==> t == selected.value
    ensures modalText == "" && (selected.None? || selected.value == "") ==> t == url
    ensures url != "" ==> t != ""
  {
    var fromSelection := if modalText == "" && selected.Some? then selected.value else modalText;
    if fromSelection == "" then url else fromSelection
  }

  /** The attributes every inserted anchor carries: a new browsing context, without an opener. */
  const LinkAttributes: string := " target=\"_blank\" rel=\"noopener noreferrer\""

  /** The opening of an anchor tag. */
  const AnchorStart: string := "<a href=\""

  /** The opening tag of an inserted anchor, up to its text. */
  function AnchorOpen(url: string): string {
    AnchorStart + url + "\"" + LinkAttributes + ">"
  }

  /** The markup string the link callback builds. */
  function LinkHtml(url: string, text: string): string {
    AnchorOpen(url) + (text + "</a>")
  }

  /** The link markup opens with the URL and the new-context attributes, and ends with the text. */
  lemma LinkHtmlShape(url: string, text: string)
    ensures HasPrefix(LinkHtml(url, text), AnchorOpen(url))
    ensures HasSuffix(LinkHtml(url, text), text + "</a>")
  {
    ConcatParts(AnchorOpen(url), text + "</a>");
    SuffixKept(AnchorOpen(url), text + "</a>", text + "</a>");
  }

  /** The link callback: nothing for an empty URL, otherwise one anchor with a non-empty text. */
  function LinkCallback(url: string, modalText: string, doc: Doc, saved: Option<Range>): (f: Option<Fragment>)
    requires saved.Some? ==> saved.value.ValidIn(doc)
    ensures f.None? <==> url == ""
    ensures f.Some? ==> !f.value.isImage && |f.value.nodes| == 1
    ensures f.Some? ==> f.value.nodes[0] == Anchor(url, LinkText(url, modalText, SelectedText(doc, saved)))
    ensures f.Some? ==> f.value.nodes[0].text != ""
    ensures f.Some? ==> f.value.html == LinkHtml(url, f.value.nodes[0].text)
  {
    if url != "" then
      var text := LinkText(url, modalText, SelectedText(doc, saved));
      Some(Fragment(LinkHtml(url, text), [Anchor(url, text)], false))
    else
      None
  }
}

=== FILE: maybe.dfy ===
/** A value that may be absent: a JavaScript `null`/`undefined` reference or property. */
module Maybe {

  datatype Option<+T> = None | Some(value: T)
}

=== FILE: nodes.dfy ===
/**
 The editable surface of the page (the content-editable `div` behind `editorRef`),
 modelled as the flat sequence of its top-level child nodes. A DOM range is a pair
 of boundary indices between those nodes. A boundary inside a text run is
 representable only once the run is split into two adjacent `Text` nodes; no
 operation here performs that split.
 */
module Nodes {

  /** The character `innerHTML = '&nbsp;'` leaves inside the placeholder paragraph. */
  const Nbsp: char := '\U{00A0}'

  datatype Node =
    | Text(data: string)
    | Br
    /** `<figure><img src alt><figcaption>caption</figcaption></figure>` */
    | Figure(src: string, alt: string, caption: string)
    /** `<a href target="_blank" rel="noopener noreferrer">text</a>` */
    | Anchor(href: string, text: string)
    | Para(text: string)

  type Doc = seq<Node>

  /** A range of the editor: boundary points `start` and `end`, counted in top-level nodes. */
  datatype Range = Range(start: nat, end: nat) {

    predicate Collapsed() {
      start == end
    }

    /** Every live DOM range lies inside the document it belongs to. */
    predicate ValidIn(doc: Doc) {
      start <= end <= |doc|
    }
  }

  /**
   `range.deleteContents()` followed by inserting `ins` at the start boundary:
   the nodes before the range are kept in place, the nodes after it are shifted.
   */
  function Splice(doc: Doc, r: Range, ins: seq<Node>): (d: Doc)
    requires r.ValidIn(doc)
    ensures |d| == |doc| - (r.end - r.start) + |ins|
    ensures forall i :: 0 <= i < r.start ==> d[i] == doc[i]
    ensures forall i :: 0 <= i < |ins| ==> d[r.start + i] == ins[i]
    ensures forall i :: r.end <= i < |doc| ==> d[i - r.end + r.start + |ins|] == doc[i]
  {
    doc[..r.start] + ins + doc[r.end..]
  }

  /** Putting the deleted nodes back over the inserted ones restores the document. */
  lemma SpliceUndo(doc: Doc, r: Range, ins: seq<Node>)
    requires r.ValidIn(doc)
    ensures Splice(Splice(doc, r, ins), Range(r.start, r.start + |ins|), doc[r.start..r.end]) == doc
  {
    var d := Splice(doc, r, ins);
    assert d[..r.start] == doc[..r.start];
    assert d[r.start + |ins|..] == doc[r.end..];
    assert doc == doc[..r.start] + doc[r.start..r.end] + doc[r.end..];
  }

  // ---------------------------------------------------------------------------
  // Text content: what `Range.prototype.toString` concatenates.

  function NodeText(n: Node): string {
    match n
    case Text(s) => s
    case Br => ""
    case Figure(_, _, caption) => caption
    case Anchor(_, text) => text
    case Para(text) => text
  }

  /**
   A document read node by node through `render` and concatenated; both the text
   content and the markup of the editor are of this shape.
   */
  function Flatten(doc: Doc, render: Node -> string): string {
    if doc == [] then "" else render(doc[0]) + Flatten(doc[1..], render)
  }

  lemma {:induction false} FlattenAppend(a: Doc, b: Doc, render: Node -> string)
    ensures Flatten(a + b, render) == Flatten(a, render) + Flatten(b, render)
  {
    if a == [] {
      assert a + b == b;
    } else {
      assert (a + b)[1..] == a[1..] + b;
      FlattenAppend(a[1..], b, render);
    }
  }

  function TextContent(doc: Doc): string {
    Flatten(doc, NodeText)
  }

  /** The text of the nodes a range spans (`range.toString()`). */
  function RangeText(doc: Doc, r: Range): (s: string)
    requires r.ValidIn(doc)
    ensures r.Collapsed() ==> s == ""
    ensures TextContent(doc) == TextContent(doc[..r.start]) + s + TextContent(doc[r.end..])
  {
    var s := TextContent(doc[r.start..r.end]);
    assert doc == doc[..r.start] + (doc[r.start..r.end] + doc[r.end..]);
    FlattenAppend(doc[..r.start], doc[r.start..r.end] + doc[r.end..], NodeText);
    FlattenAppend(doc[r.start..r.end], doc[r.end..], NodeText);
    s
  }

  // ---------------------------------------------------------------------------
  // Markup: what `editorRef.current.innerHTML` reads back, following the HTML
  // fragment serialization algorithm (escaping of text and attribute values) as
  // the HTML Living Standard states it since 2025: `<` and `>` are escaped in
  // attribute values as well as in text.

  function EscapeChar(c: char, inAttribute: bool): string {
    if c == '&' then "&amp;"
    else if c == Nbsp then "&nbsp;"
    else if inAttribute && c == '"' then "&quot;"
    else if c == '<' then "&lt;"
    else if c == '>' then "&gt;"
    else [c]
  }

  /** Escaped text never opens or closes a tag, and an escaped attribute value never closes the value. */
  function Escape(s: string, inAttribute: bool): (e: string)
    ensures '<' !in e && '>' !in e
    ensures inAttribute ==> '"' !in e
    ensures |e| >= |s|
  {
    if s == [] then "" else EscapeChar(s[0], inAttribute) + Escape(s[1..], inAttribute)
  }

  function NodeHtml(n: Node): string {
    match n
    case Text(s) => Escape(s, false)
    case Br => "<br>"
    case Figure(src, alt, caption) =>
      "<figure><img src=\"" + Escape(src, true) + "\" alt=\"" + Escape(alt, true) + "\"><figcaption>"
      + Escape(caption, false) + "</figcaption></figure>"
    case Anchor(href, text) =>
      "<a href=\"" + Escape(href, true) + "\" target=\"_blank\" rel=\"noopener noreferrer\">"
      + Escape(text, false) + "</a>"
    case Para(text) => "<p>" + Escape(text, false) + "</p>"
  }

  function InnerHtml(doc: Doc): string {
    Flatten(doc, NodeHtml)
  }

  /** After a splice, the markup read back differs from the old one only in the spliced region. */
  lemma SpliceMarkup(doc: Doc, r: Range, ins: seq<Node>)
    requires r.ValidIn(doc)
    ensures InnerHtml(Splice(doc, r, ins)) == InnerHtml(doc[..r.start]) + InnerHtml(ins) + InnerHtml(doc[r.end..])
  {
    FlattenAppend(doc[..r.start] + ins, doc[r.end..], NodeHtml);
    FlattenAppend(doc[..r.start], ins, NodeHtml);
  }
}

=== FILE: serializer.dfy ===
/**
 `generateHtmlCss`: the category breadcrumb and the document shell built from the
 five form fields and the editor's markup. The stylesheet is a fixed text of the
 page; it is a parameter `style` here, so every fact below holds whatever it says.
 */
module Serializer {
  import opened Strings
  import opened Fragments

  /** The `<title>` of a document whose title field is empty. */
  const UntitledDocument: string := "無標題文件"
  /** The `<h1>` of a document whose title field is empty. */
  const UntitledHeading: string := "無標題"
  /** Between the main and the sub category. */
  const Separator: string := " &gt; "
  const WrapperOpen: string := "<div class=\"category-wrapper\">"
  const WrapperClose: string := "</div>"

  datatype Metadata = Metadata(mainName: string, mainUrl: string, subName: string, subUrl: string, title: string)

  function SpanOpen(cls: string): string {
    "<span class=\"" + cls + "\">"
  }

  // ---------------------------------------------------------------------------
  // Breadcrumb

  /**
   One half of the breadcrumb: nothing for an empty name; otherwise the name in a
   span, inside the same new-context anchor as an inserted link when the URL is set.
   */
  function CategoryElement(cls: string, name: string, url: string): (e: string)
    ensures e == "" <==> name == ""
  {
    if name == "" then ""
    else
      var inner := if url != "" then LinkHtml(url, name) else name;
      SpanOpen(cls) + (inner + "</span>")
  }

  function MainElement(m: Metadata): string {
    CategoryElement("cat-part-main", m.mainName, m.mainUrl)
  }

  function SubElement(m: Metadata): string {
    CategoryElement("cat-part-sub", m.subName, m.subUrl)
  }

  /** The four cases of the page: both halves with the separator, one half alone, or nothing. */
  function Breadcrumb(m: Metadata): (b: string)
    ensures b == "" <==> m.mainName == "" && m.subName == ""
  {
    var main := MainElement(m);
    var sub := SubElement(m);
    var inner :=
      if main != "" && sub != "" then main + Separator + sub
      else if main != "" then main
      else if sub != "" then sub
      else "";
    if inner == "" then "" else WrapperOpen + inner + WrapperClose
  }

  /** The halves that are present, in order. */
  function Parts(m: Metadata): (ps: seq<string>)
    ensures |ps| == (if m.mainName != "" then 1 else 0) + (if m.subName != "" then 1 else 0)
    ensures forall i :: 0 <= i < |ps| ==> ps[i] != ""
  {
    (if m.mainName != "" then [MainElement(m)] else []) + (if m.subName != "" then [SubElement(m)] else [])
  }

  function Join(ps: seq<string>, sep: string): string {
    if |ps| == 0 then "" else if |ps| == 1 then ps[0] else ps[0] + sep + Join(ps[1..], sep)
  }

  /**
   The breadcrumb is the present halves joined by the separator and wrapped, so the
   separator is there exactly when both halves are.
   */
  lemma BreadcrumbJoinsParts(m: Metadata)
    ensures Breadcrumb(m) == if Parts(m) == [] then "" else WrapperOpen + Join(Parts(m), Separator) + WrapperClose
  {
    var ps := Parts(m);
    if |ps| == 2 {
      assert ps[1..] == [SubElement(m)];
    }
  }

  /** The URL of an empty name contributes nothing. */
  lemma UrlOfEmptyNameIgnored(m: Metadata, url: string)
    ensures m.mainName == "" ==> Breadcrumb(m.(mainUrl := url)) == Breadcrumb(m)
    ensures m.subName == "" ==> Breadcrumb(m.(subUrl := url)) == Breadcrumb(m)
  {
  }

  /**
   A non-empty name with a URL is wrapped in the same anchor as an inserted link,
   opening in a new browsing context without an opener.
   */
  lemma AnchorWithUrl(cls: string, name: string, url: string)
    requires name != "" && url != ""
    ensures HasPrefix(CategoryElement(cls, name, url), SpanOpen(cls) + AnchorOpen(url))
    ensures HasSuffix(CategoryElement(cls, name, url), name + "</a>" + "</span>")
  {
    var inner := LinkHtml(url, name);
    LinkHtmlShape(url, name);
    PrefixExtend(SpanOpen(cls), AnchorOpen(url), inner, "</span>");
    SuffixExtend(inner, name + "</a>", "</span>");
    SuffixKept(SpanOpen(cls), inner + "</span>", name + "</a>" + "</span>");
  }

  /** A non-empty name without a URL is embedded verbatim in its span. */
  lemma PlainName(cls: string, name: string)
    requires name != ""
    ensures HasPrefix(CategoryElement(cls, name, ""), SpanOpen(cls) + name)
    ensures HasSuffix(CategoryElement(cls, name, ""), name + "</span>")
  {
    ConcatParts(SpanOpen(cls) + name, "</span>");
    ConcatParts(SpanOpen(cls), name + "</span>");
    assert SpanOpen(cls) + (name + "</span>") == SpanOpen(cls) + name + "</span>";
  }

  /**
   A name without a URL is not wrapped in an anchor, unless the name itself starts
   like one: names are embedded unescaped.
   */
  lemma NoAnchorWithoutUrl(cls: string, name: string)
    requires name != "" && !HasPrefix(name, AnchorStart)
    ensures !HasPrefix(CategoryElement(cls, name, ""), SpanOpen(cls) + AnchorStart)
  {
    var x := name + "</span>";
    PrefixShift(SpanOpen(cls), x, AnchorStart);
    if |name| < |AnchorStart| {
      assert x[|name|] == '<' != AnchorStart[|name|];
    } else {
      assert x[..|AnchorStart|] == name[..|AnchorStart|];
    }
  }

  // ---------------------------------------------------------------------------
  // Document shell

  const DocHead: string :=
    "<!DOCTYPE html>\n<html lang=\"zh-TW\">\n<head>\n    <meta charset=\"UTF-8\">\n"
    + "    <meta name=\"viewport\" content=\"width=device-width, initial-scale=1.0\">\n    <title>"
  const ShellNote: string := "        <!-- 注意：將 <style> 標籤放在 <body> 內的 <div> 中，這不是 HTML 的標準做法，\n             通常 <style> 標籤應放在 <head> 或直接放在 <body> 的開頭。\n             這樣做可能會影響樣式載入和渲染行為，但根據您的要求已實作。 -->"
  const AfterTitle: string :=
    "\n</head>\n<body>\n    <div class=\"styles-container\">\n" + ShellNote + "\n        <style>\n"
  const AfterStyle: string := "\n        </style>\n    </div>\n    <div class=\"container\">\n        "
  const TitleClose: string := "</title>"
  const HeadingOpen: string := "\n        <h1 class=\"title\">"
  const AfterHeading: string := "</h1>\n        <div class=\"content\">\n            "
  const DocTail: string := "\n        </div>\n    </div>\n</body>\n</html>"

  function TitleOrDefault(title: string): string {
    if title != "" then title else UntitledDocument
  }

  function HeadingOrDefault(title: string): string {
    if title != "" then title else UntitledHeading
  }

  /** Everything of the document in front of the editor markup, for a given breadcrumb. */
  function Frame(style: string, title: string, crumb: string): string {
    (DocHead + TitleOrDefault(title) + TitleClose)
    + (AfterTitle + style + AfterStyle + crumb)
    + (HeadingOpen + HeadingOrDefault(title) + AfterHeading)
  }

  /**
   The frame starts with the head and the `<title>`, and ends with the breadcrumb
   directly followed by the `<h1>` and the content `div`.
   */
  lemma FrameEnds(style: string, title: string, crumb: string)
    ensures HasPrefix(Frame(style, title, crumb), DocHead + TitleOrDefault(title) + TitleClose)
    ensures HasSuffix(Frame(style, title, crumb), crumb + (HeadingOpen + HeadingOrDefault(title) + AfterHeading))
    ensures HasSuffix(Frame(style, title, crumb), HeadingOpen + HeadingOrDefault(title) + AfterHeading)
  {
    var head := DocHead + TitleOrDefault(title) + TitleClose;
    var middle := AfterTitle + style + AfterStyle + crumb;
    var heading := HeadingOpen + HeadingOrDefault(title) + AfterHeading;
    ConcatParts(head, middle);
    PrefixKept(head + middle, head, heading);
    ConcatParts(AfterTitle + style + AfterStyle, crumb);
    SuffixKept(head, middle, crumb);
    SuffixExtend(head + middle, crumb, heading);
    ConcatParts(head + middle, heading);
  }

  /** The shell around the editor markup: the frame, the markup verbatim, and the closing tags. */
  function Shell(style: string, title: string, crumb: string, content: string): (r: string)
    ensures |r| == |Frame(style, title, crumb)| + |content| + |DocTail|
  {
    Frame(style, title, crumb) + (content + DocTail)
  }

  /** The generated document: the shell around the editor markup, with the breadcrumb of the form. */
  function Document(style: string, m: Metadata, content: string): string {
    Shell(style, m.title, Breadcrumb(m), content)
  }

  /**
   The title, or `無標題文件` when it is empty, is the `<title>` of the document; the
   title, or `無標題` when it is empty, is its `<h1>`, directly followed by the editor
   markup, unescaped, and the closing tags.
   */
  lemma ShellTitles(style: string, title: string, crumb: string, content: string)
    ensures HasPrefix(Shell(style, title, crumb, content), DocHead + TitleOrDefault(title) + TitleClose)
    ensures HasSuffix(Shell(style, title, crumb, content),
                      HeadingOpen + HeadingOrDefault(title) + AfterHeading + (content + DocTail))
  {
    var f := Frame(style, title, crumb);
    FrameEnds(style, title, crumb);
    PrefixKept(f, DocHead + TitleOrDefault(title) + TitleClose, content + DocTail);
    SuffixExtend(f, HeadingOpen + HeadingOrDefault(title) + AfterHeading, content + DocTail);
  }

  /** The editor markup can be cut back out of the shell between the frame and the closing tags. */
  lemma ContentRecoverable(style: string, title: string, crumb: string, content: string)
    ensures Shell(style, title, crumb, content)[|Frame(style, title, crumb)|..|Shell(style, title, crumb, content)| - |DocTail|]
            == content
  {
    CutOut(Frame(style, title, crumb), content, DocTail);
  }

  /** Different editor markup gives different documents. */
  lemma ContentDetermined(style: string, m: Metadata, c1: string, c2: string)
    requires Document(style, m, c1) == Document(style, m, c2)
    ensures c1 == c2
  {
    BodyDetermined(Frame(style, m.title, Breadcrumb(m)), c1, c2, DocTail);
  }
}

=== FILE: session.dfy ===
/**
 The selection bookkeeping and the input modal of the page: the saved range
 (`savedRange`), the stored confirm callback (`inputModalCallback`), the two modal
 inputs (`tempInput1`, `tempInput2`), the modal's visibility and its prompt texts.
 The live selection of the window is passed in where a handler reads it.
 */
module Session {
  import opened Maybe
  import opened Nodes
  import opened Fragments
  import opened Editor

  /** Which of the two toolbar callbacks the modal will run on confirm. */
  datatype Callback = InsertImage | InsertLink

  datatype Prompt = Prompt(title: string, label1: string, placeholder1: string, label2: string, placeholder2: string)

  datatype Ui = Ui(
    saved: Option<Range>,
    visible: bool,
    prompt: Prompt,
    input1: string,
    input2: string,
    callback: Option<Callback>)

  const Initial: Ui := Ui(None, false, Prompt("", "", "", "", ""), "", "", None)

  const ImagePrompt: Prompt :=
    Prompt("插入圖片", "圖片網址:", "例如：https://example.com/image.jpg", "圖片說明 (可選):", "例如：美麗的風景")

  const LinkPrompt: Prompt :=
    Prompt("插入超連結", "連結網址:", "例如：https://google.com", "連結文字 (可選，如果沒有選擇文字):", "例如：點擊這裡")

  /** The modal is shown exactly while a callback is stored, and its inputs are empty while it is hidden. */
  predicate Consistent(u: Ui) {
    && (u.visible <==> u.callback.Some?)
    && (!u.visible ==> u.input1 == "" && u.input2 == "")
  }

  /** The state on mount: nothing saved, the modal hidden with empty inputs and no callback. */
  lemma InitialConsistent()
    ensures Consistent(Initial)
    ensures Initial.saved.None? && !Initial.visible
  {
  }

  // ---------------------------------------------------------------------------
  // Saved range

  /** Overwrites the saved range only when the window has a range; otherwise keeps the old one. */
  function SaveSelection(u: Ui, live: Option<Range>): (v: Ui)
    ensures live.Some? ==> v.saved == live
    ensures live.None? ==> v.saved == u.saved
    ensures v.(saved := u.saved) == u
  {
    if live.Some? then u.(saved := live) else u
  }

  datatype FormatCommand = Bold | Italic | Underline | ForeColor(color: string) | RemoveFormat

  /** The browser formatting command to run, and the range the selection holds when it runs. */
  datatype FormatRequest = FormatRequest(command: FormatCommand, target: Option<Range>)

  datatype FormatStep = FormatStep(ui: Ui, request: FormatRequest)

  /**
   Restores the saved range, if any, as the window's selection, issues the command
   there, and clears the saved range.
   */
  function ApplyFormat(u: Ui, live: Option<Range>, command: FormatCommand): (s: FormatStep)
    ensures s.ui.saved.None? && s.ui.(saved := u.saved) == u
    ensures s.request.command == command
    ensures u.saved.Some? ==> s.request.target == u.saved
    ensures u.saved.None? ==> s.request.target == live
  {
    var target := if u.saved.Some? then u.saved else live;
    FormatStep(u.(saved := None), FormatRequest(command, target))
  }

  /** A saved range is used by at most one command: the next one acts on the live selection. */
  lemma SavedRangeConsumedOnce(u: Ui, live: Option<Range>, c1: FormatCommand, c2: FormatCommand)
    ensures ApplyFormat(ApplyFormat(u, live, c1).ui, live, c2).request.target == live
  {
  }

  // ---------------------------------------------------------------------------
  // Modal

  function OpenInputModal(u: Ui, p: Prompt, cb: Callback): (v: Ui)
    ensures v.visible && v.callback == Some(cb) && v.prompt == p
    ensures v.input1 == "" && v.input2 == ""
    ensures v.saved == u.saved
    ensures Consistent(v)
  {
    Ui(u.saved, true, p, "", "", Some(cb))
  }

  /** Typing into the first modal input; the input exists only while the modal is shown. */
  function EditInput1(u: Ui, text: string): (v: Ui)
    requires u.visible
    ensures v.input1 == text && v.(input1 := u.input1) == u
    ensures Consistent(u) ==> Consistent(v)
  {
    u.(input1 := text)
  }

  function EditInput2(u: Ui, text: string): (v: Ui)
    requires u.visible
    ensures v.input2 == text && v.(input2 := u.input2) == u
    ensures Consistent(u) ==> Consistent(v)
  {
    u.(input2 := text)
  }

  /** Cancel: hides the modal and forgets the callback and the inputs; the saved range and prompt stay. */
  function CloseInputModal(u: Ui): (v: Ui)
    ensures !v.visible && v.callback.None? && v.input1 == "" && v.input2 == ""
    ensures v.saved == u.saved && v.prompt == u.prompt
    ensures Consistent(v)
  {
    u.(visible := false, input1 := "", input2 := "", callback := None)
  }

  /** A call of the stored callback with the two inputs. */
  datatype Invocation = Invocation(callback: Callback, input1: string, input2: string)

  datatype ConfirmStep = ConfirmStep(ui: Ui, invoked: Option<Invocation>)

  /** Confirm: calls the stored callback, if any, with the two inputs, then closes the modal. */
  function Confirm(u: Ui): (s: ConfirmStep)
    ensures s.invoked.Some? <==> u.callback.Some?
    ensures s.invoked.Some? ==> s.invoked.value == Invocation(u.callback.value, u.input1, u.input2)
    ensures !s.ui.visible && s.ui.callback.None? && s.ui.input1 == "" && s.ui.input2 == ""
    ensures s.ui.saved == u.saved
  {
    var invoked := if u.callback.Some? then Some(Invocation(u.callback.value, u.input1, u.input2)) else None;
    ConfirmStep(CloseInputModal(u), invoked)
  }

  /** The stored callback runs at most once: confirming again invokes nothing. */
  lemma ConfirmAtMostOnce(u: Ui)
    ensures Confirm(Confirm(u).ui).invoked.None?
  {
  }

  // ---------------------------------------------------------------------------
  // Toolbar buttons and the full confirm

  /** The image button: save the selection, then open the image modal. */
  function InsertImageClicked(u: Ui, live: Option<Range>): (v: Ui)
    ensures v.saved == (if live.Some? then live else u.saved)
    ensures v.visible && v.prompt == ImagePrompt && v.callback == Some(InsertImage)
    ensures v.input1 == "" && v.input2 == ""
  {
    OpenInputModal(SaveSelection(u, live), ImagePrompt, InsertImage)
  }

  /** The link button: save the selection, then open the link modal. */
  function InsertLinkClicked(u: Ui, live: Option<Range>): (v: Ui)
    ensures v.saved == (if live.Some? then live else u.saved)
    ensures v.visible && v.prompt == LinkPrompt && v.callback == Some(InsertLink)
    ensures v.input1 == "" && v.input2 == ""
  {
    OpenInputModal(SaveSelection(u, live), LinkPrompt, InsertLink)
  }

  /** What the stored callback builds from the inputs and the saved range, before inserting. */
  function CallbackFragment(inv: Invocation, doc: Doc, saved: Option<Range>): (f: Option<Fragment>)
    requires saved.Some? ==> saved.value.ValidIn(doc)
    ensures f.None? <==> inv.input1 == ""
    ensures f.Some? && inv.callback.InsertImage? ==>
      f.value.isImage && f.value.nodes == [ImageFigure(inv.input1, inv.input2)]
    ensures f.Some? && inv.callback.InsertLink? ==>
      !f.value.isImage && f.value.nodes == [Anchor(inv.input1, LinkText(inv.input1, inv.input2, SelectedText(doc, saved)))]
  {
    match inv.callback
    case InsertImage => ImageCallback(inv.input1, inv.input2)
    case InsertLink => LinkCallback(inv.input1, inv.input2, doc, saved)
  }

  /** The page after a confirm: the modal state, and the insertion the callback made, if any. */
  datatype ConfirmOutcome = ConfirmOutcome(ui: Ui, effect: Option<InsertOutcome>)

  /**
   `handleInputModalConfirm` with the callbacks of the two toolbar buttons: an
   insertion happens, and the saved range is consumed, exactly when a callback is
   stored and its URL input is non-empty; the modal is closed either way.
   */
  function ConfirmModal(doc: Doc, u: Ui): (o: ConfirmOutcome)
    requires u.saved.Some? ==> u.saved.value.ValidIn(doc)
    ensures !o.ui.visible && o.ui.callback.None? && o.ui.input1 == "" && o.ui.input2 == ""
    ensures o.effect.Some? <==> u.callback.Some? && u.input1 != ""
    ensures o.effect.Some? ==> o.ui.saved.None?
    ensures o.effect.None? ==> o.ui.saved == u.saved
    ensures o.effect.Some? ==> (o.effect.value.Spliced? <==> u.saved.Some?)
    ensures o.effect.Some? ==>
      o.effect.value == InsertAtCursor(doc, u.saved, CallbackFragment(Invocation(u.callback.value, u.input1, u.input2), doc, u.saved).value)
  {
    var step := Confirm(u);
    if step.invoked.None? then
      ConfirmOutcome(step.ui, None)
    else
      var f := CallbackFragment(step.invoked.value, doc, u.saved);
      if f.None? then
        ConfirmOutcome(step.ui, None)
      else
        ConfirmOutcome(step.ui.(saved := None), Some(InsertAtCursor(doc, u.saved, f.value)))
  }

  /** Every handler keeps the modal consistent. */
  lemma ConsistentPreserved(u: Ui, doc: Doc, live: Option<Range>, c: FormatCommand)
    requires Consistent(u)
    requires u.saved.Some? ==> u.saved.value.ValidIn(doc)
    ensures Consistent(SaveSelection(u, live))
    ensures Consistent(ApplyFormat(u, live, c).ui)
    ensures Consistent(Confirm(u).ui)
    ensures Consistent(ConfirmModal(doc, u).ui)
  {
  }

  /**
   The whole image flow: with a live range, clicking the image button, typing a URL
   and a caption and confirming puts the figure and the placeholder paragraph where
   the range was, with the caret inside the paragraph, and leaves nothing saved.
   */
  lemma ImageFlow(u: Ui, doc: Doc, r: Range, url: string, caption: string)
    requires r.ValidIn(doc) && url != ""
    ensures
      var typed := EditInput2(EditInput1(InsertImageClicked(u, Some(r)), url), caption);
      var o := ConfirmModal(doc, typed);
      && o.ui == Ui(None, false, ImagePrompt, "", "", None)
      && o.effect == Some(InsertAtCursor(doc, Some(r), ImageCallback(url, caption).value))
      && o.effect.value.doc == doc[..r.start] + [ImageFigure(url, caption), Placeholder] + doc[r.end..]
      && o.effect.value.caret == InNode(r.start + 1, 0)
  {
    ImageInsertion(doc, r, url, caption);
  }

  /**
   The whole link flow: with a live range, clicking the link button, typing a URL and
   a text and confirming puts one anchor where the range was, its text chosen from the
   typed text, the selected text and the URL in that order, with the caret at the end
   of the editor, and leaves nothing saved.
   */
  lemma LinkFlow(u: Ui, doc: Doc, r: Range, url: string, text: string)
    requires r.ValidIn(doc) && url != ""
    ensures
      var typed := EditInput2(EditInput1(InsertLinkClicked(u, Some(r)), url), text);
      var o := ConfirmModal(doc, typed);
      && o.ui == Ui(None, false, LinkPrompt, "", "", None)
      && o.effect.Some? && o.effect.value.Spliced?
      && o.effect.value.doc == doc[..r.start] + [Anchor(url, LinkText(url, text, SelectedText(doc, Some(r))))] + doc[r.end..]
      && o.effect.value.caret == Gap(|o.effect.value.doc|)
  {
  }

  /**
   Cancelling the modal keeps the range saved when the button was clicked, so the
   next formatting command acts on that range instead of the current selection.
   */
  lemma CancelledRangeStillRestored(u: Ui, r: Range, later: Option<Range>, c: FormatCommand)
    ensures
      var cancelled := CloseInputModal(InsertLinkClicked(u, Some(r)));
      && cancelled.saved == Some(r)
      && ApplyFormat(cancelled, later, c).request.target == Some(r)
  {
  }

  /** With an empty URL, confirming inserts nothing and the saved range survives. */
  lemma EmptyUrlKeepsSavedRange(doc: Doc, u: Ui)
    requires u.visible && u.callback.Some? && u.input1 == ""
    requires u.saved.Some? ==> u.saved.value.ValidIn(doc)
    ensures ConfirmModal(doc, u).effect.None?
    ensures ConfirmModal(doc, u).ui.saved == u.saved
  {
  }
}

=== FILE: settings.dfy ===
/**
 The form state of the page and the three operations on all of it at once:
 exporting it as a JSON object, importing such an object back, and clearing it.
 JSON text is out of scope: export stops at the object handed to `JSON.stringify`,
 import starts from what `JSON.parse` returned, or from its failure.
 */
module Settings {
  import opened Maybe

  /**
   A JSON value as `JSON.parse` returns it. An object keeps its members in order,
   duplicates included. Numbers are integers here: only whether one is zero matters.
   */
  datatype Json =
    | JNull
    | JBool(b: bool)
    | JNum(n: int)
    | JStr(s: string)
    | JArr(items: seq<Json>)
    | JObj(members: seq<Member>)

  datatype Member = Member(key: string, value: Json)

  /** JavaScript truthiness of a property value; `None` is `undefined`. */
  predicate Truthy(v: Option<Json>) {
    match v
    case None => false
    case Some(JNull) => false
    case Some(JBool(b)) => b
    case Some(JNum(n)) => n != 0
    case Some(JStr(s)) => s != ""
    case Some(_) => true
  }

  /** The value of the last member named `key`: `JSON.parse` keeps the last of duplicate keys. */
  function Lookup(ms: seq<Member>, key: string): (v: Option<Json>)
    ensures v.None? <==> forall i :: 0 <= i < |ms| ==> ms[i].key != key
    ensures v.Some? ==>
      exists i :: 0 <= i < |ms| && ms[i] == Member(key, v.value) && forall j :: i < j < |ms| ==> ms[j].key != key
  {
    if |ms| == 0 then None
    else if ms[|ms| - 1].key == key then Some(ms[|ms| - 1].value)
    else Lookup(ms[..|ms| - 1], key)
  }

  /**
   `value.key` for a value that is not `null`: an object's member, and `undefined`
   for a missing member or for any other kind of value.
   */
  function Property(v: Json, key: string): (p: Option<Json>)
    requires !v.JNull?
    ensures !v.JObj? ==> p.None?
  {
    if v.JObj? then Lookup(v.members, key) else None
  }

  /** `value || ''`: a falsy value, `undefined` included, becomes the empty string. */
  function OrEmpty(v: Option<Json>): (r: Json)
    ensures Truthy(v) ==> r == v.value
    ensures !Truthy(v) ==> r == JStr("")
    ensures Normal(r)
  {
    if Truthy(v) then v.value else JStr("")
  }

  /** A value a form field can hold after typing, clearing or importing: a string, or a truthy value. */
  predicate Normal(v: Json) {
    v.JStr? || Truthy(Some(v))
  }

  // ---------------------------------------------------------------------------
  // The form

  datatype Field = MainCategoryName | MainCategoryUrl | SubCategoryName | SubCategoryUrl | TitleText | EditorContent

  /** The export order of the fields. */
  const Fields: seq<Field> := [MainCategoryName, MainCategoryUrl, SubCategoryName, SubCategoryUrl, TitleText, EditorContent]

  function Key(f: Field): string {
    match f
    case MainCategoryName => "mainCategoryName"
    case MainCategoryUrl => "mainCategoryUrl"
    case SubCategoryName => "subCategoryName"
    case SubCategoryUrl => "subCategoryUrl"
    case TitleText => "titleText"
    case EditorContent => "editorContent"
  }

  /** The six pieces of React state the export covers; each holds a string unless imported otherwise. */
  datatype Form = Form(
    mainCategoryName: Json,
    mainCategoryUrl: Json,
    subCategoryName: Json,
    subCategoryUrl: Json,
    titleText: Json,
    editorContent: Json)

  /** The position of a field in the export order. */
  function Index(f: Field): (i: nat)
    ensures i < |Fields| && Fields[i] == f
  {
    match f
    case MainCategoryName => 0
    case MainCategoryUrl => 1
    case SubCategoryName => 2
    case SubCategoryUrl => 3
    case TitleText => 4
    case EditorContent => 5
  }

  function Get(form: Form, f: Field): Json {
    match f
    case MainCategoryName => form.mainCategoryName
    case MainCategoryUrl => form.mainCategoryUrl
    case SubCategoryName => form.subCategoryName
    case SubCategoryUrl => form.subCategoryUrl
    case TitleText => form.titleText
    case EditorContent => form.editorContent
  }

  predicate NormalForm(form: Form) {
    forall f :: Normal(Get(form, f))
  }

  /** The form, the generated document, and the message box. */
  datatype Page = Page(form: Form, generatedHtml: string, message: string, showMessageBox: bool)

  const ExportFileName: string := "html_generator_settings.json"
  const ExportedMessage: string := "設定已匯出為 html_generator_settings.json"
  const ImportedMessage: string := "設定已成功匯入！"
  const ImportFailedMessage: string := "載入設定失敗：無效的 JSON 檔案。"
  const ClearedMessage: string := "所有內容已清空！"

  // ---------------------------------------------------------------------------
  // Export

  /** The object handed to `JSON.stringify`: exactly the six keys, in order, each with its field's value. */
  function SettingsObject(form: Form): (o: Json)
    ensures o.JObj? && |o.members| == |Fields|
    ensures forall i :: 0 <= i < |Fields| ==> o.members[i] == Member(Key(Fields[i]), Get(form, Fields[i]))
  {
    JObj([
      Member("mainCategoryName", form.mainCategoryName),
      Member("mainCategoryUrl", form.mainCategoryUrl),
      Member("subCategoryName", form.subCategoryName),
      Member("subCategoryUrl", form.subCategoryUrl),
      Member("titleText", form.titleText),
      Member("editorContent", form.editorContent)])
  }

  /** Each field is read back from the exported object under its own key. */
  lemma ExportedFieldsReadBack(form: Form, f: Field)
    ensures Property(SettingsObject(form), Key(f)) == Some(Get(form, f))
  {
    var ms := SettingsObject(form).members;
    var i := Index(f);
    assert ms[i] == Member(Key(f), Get(form, f));
    forall j | i < j < |ms|
      ensures ms[j].key != Key(f)
    {
      assert ms[j].key == Key(Fields[j]);
    }
    LookupLastOccurrence(ms, i, Key(f));
  }

  /** A member whose key does not occur later is the one the lookup finds. */
  lemma {:induction false} LookupLastOccurrence(ms: seq<Member>, i: nat, key: string)
    requires i < |ms| && ms[i].key == key
    requires forall j :: i < j < |ms| ==> ms[j].key != key
    ensures Lookup(ms, key) == Some(ms[i].value)
    decreases |ms|
  {
    if i < |ms| - 1 {
      LookupLastOccurrence(ms[..|ms| - 1], i, key);
    }
  }

  datatype Download = Download(fileName: string, payload: Json)

  datatype ExportStep = ExportStep(page: Page, download: Download)

  function ExportSettings(page: Page): (s: ExportStep)
    ensures s.download.fileName == ExportFileName
    ensures s.download.payload.JObj? && |s.download.payload.members| == |Fields|
    ensures forall f :: Property(s.download.payload, Key(f)) == Some(Get(page.form, f))
    ensures s.page == page.(message := ExportedMessage, showMessageBox := true)
  {
    var o := SettingsObject(page.form);
    forall f
      ensures Property(o, Key(f)) == Some(Get(page.form, f))
    {
      ExportedFieldsReadBack(page.form, f);
    }
    ExportStep(page.(message := ExportedMessage, showMessageBox := true), Download(ExportFileName, o))
  }

  // ---------------------------------------------------------------------------
  // Import

  /** The form whose every field is given by `g`. */
  function FormOf(g: Field -> Json): (form: Form)
    ensures forall f :: Get(form, f) == g(f)
  {
    Form(g(MainCategoryName), g(MainCategoryUrl), g(SubCategoryName), g(SubCategoryUrl), g(TitleText), g(EditorContent))
  }

  /** The form an imported value fills in: each field its key's value, or `''` when that is falsy. */
  function ImportedForm(v: Json): (form: Form)
    requires !v.JNull?
    ensures forall f :: Get(form, f) == OrEmpty(Property(v, Key(f)))
    ensures NormalForm(form)
  {
    FormOf(f => OrEmpty(Property(v, Key(f))))
  }

  /**
   Whether JavaScript's string conversion throws on a parsed value, as the `innerHTML`
   setter does on the value it is given. An object converts through its `toString`;
   a parsed object with its own `toString` member hides the callable one it inherits,
   and its `valueOf` (inherited, or its own and not callable either) gives no
   primitive, so the conversion throws a `TypeError`. An array converts by joining
   its elements, converting each one that is not `null`. Everything else converts.
   */
  predicate StringConversionThrows(v: Json) {
    match v
    case JObj(ms) => Lookup(ms, "toString").Some?
    case JArr(items) => exists i :: 0 <= i < |items| && StringConversionThrows(items[i])
    case _ => false
  }

  /**
   The file reader's `onload`: `parsed` is what `JSON.parse` returned, `None` when it
   threw. A `null` payload throws at the first property access, before any field is
   set. Otherwise every field takes its key's value, or `''` when that is missing or
   falsy; then the editor's `innerHTML` is set to the imported content, which throws
   when that value cannot be converted to a string. A throw shows the failure
   message, with whatever fields were already set kept.
   */
  function ImportSettings(page: Page, parsed: Option<Json>): (r: Page)
    ensures parsed.None? || parsed.value.JNull? ==>
      r == page.(message := ImportFailedMessage, showMessageBox := true)
    ensures parsed.Some? && !parsed.value.JNull? ==>
      && (forall f :: Get(r.form, f) == OrEmpty(Property(parsed.value, Key(f))))
      && r.generatedHtml == page.generatedHtml
      && r.showMessageBox
    ensures r.message == ImportedMessage <==>
      parsed.Some? && !parsed.value.JNull? && !StringConversionThrows(r.form.editorContent)
    ensures r.message != ImportedMessage ==> r.message == ImportFailedMessage
    ensures NormalForm(page.form) ==> NormalForm(r.form)
  {
    if parsed.None? || parsed.value.JNull? then
      page.(message := ImportFailedMessage, showMessageBox := true)
    else
      var form := ImportedForm(parsed.value);
      var message := if StringConversionThrows(form.editorContent) then ImportFailedMessage else ImportedMessage;
      Page(form, page.generatedHtml, message, true)
  }

  /**
   Content whose string conversion throws fails the import after every field has
   been set: the form holds the imported values, yet the failure message is shown.
   */
  lemma UnconvertibleContentFailsAfterSetting(page: Page, v: Json, c: Json)
    requires !v.JNull? && Property(v, Key(EditorContent)) == Some(c) && StringConversionThrows(c)
    ensures ImportSettings(page, Some(v)).message == ImportFailedMessage
    ensures ImportSettings(page, Some(v)).form == ImportedForm(v)
  {
    assert Get(ImportSettings(page, Some(v)).form, EditorContent) == c;
  }

  /** For example, the content `{"toString": 0}` cannot be converted to a string. */
  lemma OwnToStringThrows(ms: seq<Member>)
    requires exists i :: 0 <= i < |ms| && ms[i].key == "toString"
    ensures StringConversionThrows(JObj(ms))
  {
  }

  /** Strings, numbers, booleans and `null` always convert, so a normal string form never fails this way. */
  lemma StringsConvert(v: Json)
    requires v.JStr? || v.JNum? || v.JBool? || v.JNull?
    ensures !StringConversionThrows(v)
  {
  }

  /** A field holding a string or a truthy value survives export and import unchanged. */
  lemma FieldRoundTrip(form: Form, f: Field)
    requires Normal(Get(form, f))
    ensures OrEmpty(Property(SettingsObject(form), Key(f))) == Get(form, f)
  {
    ExportedFieldsReadBack(form, f);
  }

  /** Reading the exported object back fills in the form it was made from. */
  lemma ImportedFormOfExport(form: Form)
    requires NormalForm(form)
    ensures ImportedForm(SettingsObject(form)) == form
  {
    var r := ImportedForm(SettingsObject(form));
    forall f
      ensures Get(r, f) == Get(form, f)
    {
      FieldRoundTrip(form, f);
    }
    FormExtensional(r, form);
  }

  /** Importing an exported form gives back every field of it. */
  lemma ExportImportRoundTrip(page: Page, other: Page)
    requires NormalForm(page.form)
    ensures ImportSettings(other, Some(ExportSettings(page).download.payload)).form == page.form
  {
    assert ExportSettings(page).download.payload == SettingsObject(page.form);
    ImportedFormOfExport(page.form);
  }

  lemma FormExtensional(a: Form, b: Form)
    requires forall f :: Get(a, f) == Get(b, f)
    ensures a == b
  {
    assert Get(a, MainCategoryName) == Get(b, MainCategoryName);
    assert Get(a, MainCategoryUrl) == Get(b, MainCategoryUrl);
    assert Get(a, SubCategoryName) == Get(b, SubCategoryName);
    assert Get(a, SubCategoryUrl) == Get(b, SubCategoryUrl);
    assert Get(a, TitleText) == Get(b, TitleText);
    assert Get(a, EditorContent) == Get(b, EditorContent);
  }

  /** A falsy field of any kind, such as `0`, `false` or `null`, comes back from a round trip as `''`. */
  lemma FalsyFieldBecomesEmpty(page: Page, f: Field)
    requires !Truthy(Some(Get(page.form, f)))
    ensures Get(ImportSettings(page, Some(ExportSettings(page).download.payload)).form, f) == JStr("")
  {
    ExportedFieldsReadBack(page.form, f);
  }

  // ---------------------------------------------------------------------------
  // Clear

  const EmptyForm: Form := Form(JStr(""), JStr(""), JStr(""), JStr(""), JStr(""), JStr(""))

  function ClearAllContent(page: Page): (r: Page)
    ensures forall f :: Get(r.form, f) == JStr("")
    ensures r.generatedHtml == ""
    ensures r.message == ClearedMessage && r.showMessageBox
    ensures NormalForm(r.form)
  {
    Page(EmptyForm, "", ClearedMessage, true)
  }

  /** A cleared form survives export followed by import, with the imported message. */
  lemma ClearedFormRoundTrip(page: Page, other: Page)
    ensures var cleared := ClearAllContent(page);
            var r := ImportSettings(other, Some(ExportSettings(cleared).download.payload));
            r.form == cleared.form && r.message == ImportedMessage
  {
    var cleared := ClearAllContent(page);
    ExportImportRoundTrip(cleared, other);
  }
}

=== FILE: strings.dfy ===
/** Prefix and suffix facts about strings, used to state where a piece of markup lands. */
module Strings {

  predicate HasPrefix(s: string, p: string) {
    |p| <= |s| && s[..|p|] == p
  }

  predicate HasSuffix(s: string, p: string) {
    |p| <= |s| && s[|s| - |p|..] == p
  }

  lemma ConcatParts(a: string, b: string)
    ensures HasPrefix(a + b, a) && HasSuffix(a + b, b)
  {
    assert (a + b)[..|a|] == a;
    assert (a + b)[|a + b| - |b|..] == b;
  }

  /** A prefix of `b` stays a prefix when `b` is extended and both are put after `s`. */
  lemma PrefixExtend(s: string, a: string, b: string, x: string)
    requires HasPrefix(b, a)
    ensures HasPrefix(s + (b + x), s + a)
  {
    assert (s + (b + x))[..|s + a|] == s + (b + x)[..|a|];
    assert (b + x)[..|a|] == b[..|a|];
  }

  /** Appending to a string keeps its prefixes. */
  lemma PrefixKept(s: string, a: string, x: string)
    requires HasPrefix(s, a)
    ensures HasPrefix(s + x, a)
  {
    assert (s + x)[..|a|] == s[..|a|];
  }

  /** Appending the same text to a string and to its suffix keeps the suffix relation. */
  lemma SuffixExtend(s: string, a: string, x: string)
    requires HasSuffix(s, a)
    ensures HasSuffix(s + x, a + x)
  {
    assert (s + x)[|s + x| - |a + x|..] == s[|s| - |a|..] + x;
  }

  /** A body put between a head and a tail can be cut back out. */
  lemma CutOut(head: string, body: string, tail: string)
    ensures (head + (body + tail))[|head|..|head + (body + tail)| - |tail|] == body
  {
    assert (head + (body + tail))[|head|..] == body + tail;
  }

  /** Between a fixed head and a fixed tail, different bodies give different strings. */
  lemma BodyDetermined(head: string, b1: string, b2: string, tail: string)
    requires head + (b1 + tail) == head + (b2 + tail)
    ensures b1 == b2
  {
    CutOut(head, b1, tail);
    CutOut(head, b2, tail);
  }

  /** A common head can be added to or dropped from both sides of a prefix relation. */
  lemma PrefixShift(s: string, x: string, a: string)
    ensures HasPrefix(s + x, s + a) <==> HasPrefix(x, a)
  {
    if |a| <= |x| {
      assert x[..|a|] == (s + x)[|s|..|s + a|];
      assert (s + x)[..|s + a|] == s + x[..|a|];
    }
  }

  /** Putting text in front of a string keeps its suffixes. */
  lemma SuffixKept(s: string, x: string, a: string)
    requires HasSuffix(x, a)
    ensures HasSuffix(s + x, a)
  {
    assert (s + x)[|s + x| - |a|..] == x[|x| - |a|..];
  }
}
